=== FILE: README.md ===
# macOS service controller (launchd), modelled in Dafny

This project models the macOS back end of a cross-platform service
library: `MacosController` in `src/controller/macos.rs`. The controller
manages a launchd service. An agent runs per user and a daemon runs
system-wide. For each service it does three things:

- it writes a launchd property list (plist). This is XML in Apple's
  PropertyList-1.0 DTD format, and its text is fixed except for a few
  conditional entries;
- it puts that plist under `/Library/LaunchAgents/` or
  `/Library/LaunchDaemons/`, at a path computed from the scope and the
  service name;
- it sequences file writes and removals with `launchctl load`, `unload`,
  `start` and `stop`. An operation stops at the first error.

Layout, one module per concern:

| file | module | what it holds |
|---|---|---|
| `base.dfy` | `Base` | `Option` |
| `session.dfy` | `Session` | the session-type enum, its launchd names, and the inverse mapping |
| `paths.dfy` | `Paths` | `Path::join`, `PathBuf::pop`, the plist path rule |
| `plist.dfy` | `Plist` | the plist text, chunk by chunk, and `PlistText` |
| `plist_reader.dfy` | `PlistReader` | a reader for exactly this plist shape; reading back a generated plist recovers its inputs |
| `environment.dfy` | `Environment` | the world (files, loaded plists, started names, effect log), injected faults, `class Host` |
| `controller.dfy` | `Controller` | `class MacosController`: constructor, `GetPlistContent` (a loop), `WritePlist`, `Create`, `Delete`, `Start`, `Stop`, `Load`, `Unload` |
| `controller_properties.dfy` | `ControllerProperties` | lemmas on ordering, early return, agent/daemon asymmetry and path agreement |

Each operation that changes state is an imperative method on
`MacosController`. It acts on a `Host` that holds the files, launchd's
loaded and started sets, and a log of the effects that took place. Its
postcondition equates the result and the new `Host` state with a spec
function of the old state (`CreateSpec`, `DeleteSpec`, ...). The lemmas in
`ControllerProperties` are proved about those spec functions. Faults are
injected through `Faults`:

- `currentExe = None` means `env::current_exe()` failed;
- `readOnly` lists the paths that cannot be written or removed;
- `canSpawn = false` means `launchctl` cannot be spawned.

Behaviour of the source that a reader might not expect, and that the model
keeps as written:

- The `launchctl_*` helpers (src/controller/macos.rs:38-96) never inspect
  the exit status of `launchctl`. So `Load` of a missing plist, or `Start`
  of a name launchd does not know, returns `Ok`
  (`LoadOfMissingPlistSucceeds`, `StartAndStopTouchNoFiles`).
- `create` (src/controller/macos.rs:211-219) does not detect an existing
  plist. `File::create` truncates it, a daemon is loaded again, and the
  call succeeds (`CreateTwiceSucceeds`).
- `get_plist_content` fails when `env::current_exe()` fails
  (src/controller/macos.rs:130-131), and with it `write_plist` and
  `create` (`Error.CurrentExeFailed`).

`Path::join` with an absolute argument replaces the base path
(src/controller/macos.rs:203-205). A service name that starts with `/`
therefore gets the name itself plus `.plist` as its plist path, wherever
that is, for agents and daemons alike (`Paths.PlistPathOfAbsoluteName`).
Such a path can even coincide with another scope's path: an agent named
`/Library/LaunchDaemons/x` gets the plist path of the daemon `x`
(`Paths.AbsoluteNameCrossesScope`). For a relative name, the path is the
scope directory followed by `<name>.plist`, and distinct (scope, name)
pairs get distinct path texts (`Paths.PlistPathInjective`). A relative
name with `..` can still name another scope's file on disk: an agent named
`../LaunchDaemons/x` writes `/Library/LaunchAgents/../LaunchDaemons/x.plist`,
which is the daemon `x`'s plist. The model keys files by path text, so it
does not see that collision.

## Model

| member | source | states |
|---|---|---|
| `Session.Display` | src/controller/macos.rs:27-36 | each session type renders as one of Aqua, StandardIO, Background, LoginWindow, a non-empty name with no `<` |
| `Session.FromLaunchdName` | src/controller/macos.rs:27-36 | reading a launchd name back gives a session type that `Display` maps to that name; only the four launchd names are accepted |
| `Session.FromLaunchdNameOfDisplay` | src/controller/macos.rs:27-36 | rendering and reading back returns the same session type |
| `Session.DisplayInjective` | src/controller/macos.rs:27-36 | distinct session types have distinct launchd names |
| `Session.Names` | src/controller/macos.rs:170-173 | the names of a session list: one per element, in list order, each its `Display` |
| `Session.FromLaunchdNames` | src/controller/macos.rs:170-173 | reading a name list back, when it succeeds, gives session types whose names are that list |
| `Session.FromLaunchdNamesOfNames` | src/controller/macos.rs:170-173 | a list of session types written as names reads back as the same list |
| `Paths.Join` | src/controller/macos.rs:203-205 | an absolute argument replaces the base; otherwise the base is kept as a prefix; the result always ends with the argument |
| `Paths.PlistPath` | src/controller/macos.rs:202-206 | the plist path always ends with `<service_name>.plist` |
| `Paths.PlistPathInDirectory` | src/controller/macos.rs:202-206 | for a name not starting with `/`, the path is `/Library/LaunchAgents/<name>.plist` for an agent and `/Library/LaunchDaemons/<name>.plist` for a daemon |
| `Paths.PlistPathOfAbsoluteName` | src/controller/macos.rs:203-205 | a name starting with `/` replaces the directory: the path is `<name>.plist` for agents and daemons alike |
| `Paths.PlistPathInjective` | src/controller/macos.rs:202-206 | two (scope, relative name) pairs with the same plist path are the same pair |
| `Paths.AbsoluteNameCrossesScope` | src/controller/macos.rs:202-206 | a service whose name is the other scope's directory followed by a relative name gets exactly that other service's plist path, so absolute names can collide across scopes |
| `Paths.Pop` | src/controller/macos.rs:135-137 | the working directory is a prefix of the executable path |
| `Paths.PopJoin` | src/controller/macos.rs:135-137 | popping a path made by joining one plain component (not `.`) onto a directory that does not end in `/.` gives back the directory (the working directory is the executable's parent) |
| `Plist.PlistTextFrame` | src/controller/macos.rs:139-190 | every plist `Plist.PlistText` builds begins with the XML/DOCTYPE/`<plist><dict>` header, whose first character is a newline, and ends with `</dict>` and `</plist>` |
| `PlistReader.ReadFixedOf` | src/controller/macos.rs:146-162 | the fixed entries read back, in order, as Disabled false, Label = service name, ProgramArguments = the executable alone, WorkingDirectory = its parent, RunAtLoad true |
| `PlistReader.ReadItemsOf` | src/controller/macos.rs:170-176 | an array written one `<string>` per value reads back as the same values in the same order |
| `PlistReader.ReadSessionTypesOf` | src/controller/macos.rs:164-178 | the LimitLoadToSessionType array is present exactly for an agent with session types set, and then holds exactly those types in order; an agent with an empty list gets an empty array |
| `PlistReader.ReadKeepAliveOf` | src/controller/macos.rs:180-184 | the KeepAlive/true entry is present exactly when keep-alive is on, right before the closing tags |
| `PlistReader.DecodePlistText` | src/controller/macos.rs:129-191 | the whole plist reads back as the controller's values, in the documented order: header, fixed entries, the optional session array, the optional KeepAlive, footer |
| `Environment.WriteStep` | src/controller/macos.rs:196-198 | a write succeeds exactly when the path is writable; the path then holds the content and no other file changes; a failed write changes no file; launchd's loaded set is untouched |
| `Environment.RemoveStep` | src/controller/macos.rs:226-227 | a removal succeeds exactly when the file exists and is removable; exactly that file is then gone, and on failure the files are unchanged |
| `Environment.LaunchctlStep` | src/controller/macos.rs:38-96 | a `launchctl_*` helper returns `Err` exactly when the tool cannot be spawned, and then changes nothing; otherwise it returns `Ok`, logs the command and touches no file |
| `Environment.Host.WriteFile` | src/controller/macos.rs:196-198 | the file is created or truncated with the content; on a write failure nothing changes |
| `Environment.Host.RemoveFile` | src/controller/macos.rs:226-227 | removal fails when the file is absent or cannot be removed; otherwise exactly that file is removed |
| `Environment.Host.Launchctl` | src/controller/macos.rs:38-96 | the host's state after a launchctl call is that of `LaunchctlStep` |
| `Controller.CreateSpec` | src/controller/macos.rs:211-219 | create succeeds exactly when the executable is known, the plist path is writable and, for a daemon, `launchctl` can be spawned; the only file it can add is the plist, and it removes none |
| `Controller.DeleteSpec` | src/controller/macos.rs:221-228 | delete succeeds exactly when the plist exists and is removable and, for a daemon, `launchctl` can be spawned; a successful delete removes exactly the plist, and a failed one changes no file |
| `Controller.MacosController.constructor` | src/controller/macos.rs:109-118 | the three names are copied unchanged; the controller is a daemon with no session types and keep-alive on |
| `Controller.MacosController.GetPlistContent` | src/controller/macos.rs:129-191 | fails with `CurrentExeFailed` when the executable cannot be located, and otherwise returns `PlistText` of the fields, built chunk by chunk with one array item per session type |
| `Controller.MacosController.WritePlist` | src/controller/macos.rs:193-200 | produces the content first and writes nothing if that fails; otherwise it writes the content to the given path |
| `Controller.MacosController.Create` | src/controller/macos.rs:211-219 | the new host state and result are those of `CreateSpec`: write the plist, then load it for a daemon only |
| `Controller.MacosController.Delete` | src/controller/macos.rs:221-228 | the new host state and result are those of `DeleteSpec`: unload it for a daemon only, then remove the plist |
| `Controller.MacosController.Start` | src/controller/macos.rs:230-232 | one `launchctl start` by service name |
| `Controller.MacosController.Stop` | src/controller/macos.rs:234-236 | one `launchctl stop` by service name |
| `Controller.MacosController.Load` | src/controller/macos.rs:238-240 | one `launchctl load` of the plist path, for agents and daemons alike |
| `Controller.MacosController.Unload` | src/controller/macos.rs:242-244 | one `launchctl unload` of the plist path, for agents and daemons alike |
| `ControllerProperties.CreateStopsAtWriteFailure` | src/controller/macos.rs:211-214 | if the plist cannot be produced or written, create returns that error, runs no launchctl command and changes nothing |
| `ControllerProperties.CreateAgentOnlyWrites` | src/controller/macos.rs:211-219 | for an agent, create writes the plist and returns `Ok`, with no launchctl call and nothing loaded |
| `ControllerProperties.CreateDaemonWritesThenLoads` | src/controller/macos.rs:211-219 | for a daemon, create writes and then loads; its result is the load's; after a failed load the plist stays on disk |
| `ControllerProperties.DeleteDaemonStopsAtUnloadFailure` | src/controller/macos.rs:221-225 | a daemon whose unload fails is not removed: the unload error is returned and nothing changes |
| `ControllerProperties.DeleteOrder` | src/controller/macos.rs:221-228 | a successful delete had the plist on disk and removes exactly it; a daemon is unloaded before removal, and an agent is only removed and stays as loaded as it was |
| `ControllerProperties.DeleteWithoutPlistFails` | src/controller/macos.rs:221-228 | deleting a service whose plist is absent always fails and removes no file |
| `ControllerProperties.DeleteRemovesPlist` | src/controller/macos.rs:221-228 | with the plist on disk and launchctl available, delete succeeds, removes exactly the plist and leaves a daemon unloaded |
| `ControllerProperties.CreateSucceeds` | src/controller/macos.rs:211-219 | without faults create succeeds and changes no file except its plist |
| `ControllerProperties.CreateThenDelete` | src/controller/macos.rs:211-228 | create then delete succeed and restore the files, less the plist path; create and delete target the same path; a daemon ends up unloaded |
| `ControllerProperties.CreateTwiceSucceeds` | src/controller/macos.rs:193-219 | a second create succeeds and leaves the same files: an earlier registration is not detected |
| `ControllerProperties.LoadAndUnloadAfterCreate` | src/controller/macos.rs:238-244 | after create, load adds the plist create wrote to launchd's loaded set, and unload takes it out again |
| `ControllerProperties.LoadOfMissingPlistSucceeds` | src/controller/macos.rs:38-54 | loading a plist that is not on disk returns `Ok` while nothing is loaded, because the exit status is ignored |
| `ControllerProperties.StartAndStopTouchNoFiles` | src/controller/macos.rs:229-236 | start and stop touch no file, issue one command by service name, and succeed exactly when launchctl can be spawned |
| `ControllerProperties.CreateWritesDescriptor` | src/controller/macos.rs:193-219 | for a service name and executable path without `<`, the plist create writes reads back as the controller's values |
| `ControllerProperties.SampleAgent` | src/controller/macos.rs:129-219 | a GUI agent "sample.agent" run from /usr/local/bin/sample: create writes `/Library/LaunchAgents/sample.agent.plist` with that Label, session type Aqua, WorkingDirectory /usr/local/bin and KeepAlive, and runs no launchctl command |

## Left out

- Spawning `launchctl`, capturing its output and `info!` logging (src/controller/macos.rs:38-96, 194) are left out. Each helper is one abstract `Command` whose only observable failure is "cannot spawn".
- Error messages are left out. Errors are structured values that carry the operation and its target; the formatted text of `Error::new` is not modelled.
- `env::current_exe()` is a parameter (`Faults.currentExe`, with `None` for failure). The two `expect("... unicode")` panics cannot happen, because Dafny strings are always valid text.
- Paths.Pop: trailing separators are trimmed as `Path::parent` does. `.` components and non-Unix path prefixes are not modelled.
- Environment.Host.WriteFile: a write that fails after `File::create` has already truncated the file is modelled as leaving the file unchanged. Failures are decided by the `readOnly` set.
- Environment.LaunchctlStep: launchd's own behaviour is reduced to a loaded set of plist paths and a started set of names. Loading needs the file on disk. Refusing to start an unknown label, running the program, `RunAtLoad` and `KeepAlive` are not modelled. The controller ignores launchd's verdict anyway.
- PlistReader.DecodePlistText: it requires a service name and executable path without `<`. The controller inserts them without XML escaping, so other values can yield ambiguous or malformed XML.
- ControllerProperties.CreateWritesDescriptor: it requires a service name and executable path without `<`, for the same reason as `PlistReader.DecodePlistText`. The source inserts both unescaped, so a `<` in either makes the plist unreadable (`Decode` gives `None`).
- Environment.World: files are keyed by path text. `.`, `..`, repeated separators and symlinks are not resolved, so two texts that name one file are two files in the model.
- `display_name` and `description` are stored by the constructor but not used by any operation, as in the source.
- `register` and the `Service!` macro (src/controller/macos.rs:120-127, 247-255) are left out. They only call a function pointer with the process arguments.
- `dispatch` (src/controller/macos.rs:257-266) is left out. It installs a Ctrl-C handler that sends `Stop` over an `mpsc` channel: cross-thread signal delivery through foreign crates.

=== FILE: base.dfy ===
/** Small helper types shared by the other modules. */
module Base {

  /** The conventional Some/None datatype, usable with `:-`. */
  datatype Option<+T> = None | Some(value: T) {

    predicate IsFailure() {
      None?
    }

    function PropagateFailure<U>(): Option<U>
      requires None?
    {
      None
    }

    function Extract(): T
      requires Some?
    {
      value
    }
  }
}

=== FILE: controller.dfy ===
/**
  The macOS service controller: a launchd agent or daemon described by a
  plist file, managed through `launchctl`. The controller's fields are
  plain data; what its operations change is the Host they act on.
*/
module Controller {
  import opened Base
  import opened Session
  import opened Paths
  import opened Plist
  import opened Environment

  /**
    The six fields of `MacosController` as one value: what `Config()` returns,
    so that the operations can be specified by functions of it.
  */
  datatype Settings = Settings(
    serviceName: string,
    displayName: string,
    description: string,
    isAgent: bool,
    sessionTypes: Option<seq<TargetSession>>,
    keepAlive: bool)

  function PathOf(s: Settings): string {
    PlistPath(s.isAgent, s.serviceName)
  }

  /** The plist text, or the error of locating the running executable. */
  function PlistContent(s: Settings, currentExe: Option<string>): Result<string> {
    match currentExe
    case None => Err(CurrentExeFailed)
    case Some(exe) => Ok(PlistText(s.serviceName, exe, s.isAgent, s.sessionTypes, s.keepAlive))
  }

  // Each operation as a function of the settings, the faults and the world before it:
  // its result and the world after it.

  function WritePlistSpec(s: Settings, f: Faults, w: World, path: string): (Result<()>, World) {
    match PlistContent(s, f.currentExe)
    case Err(e) => (Err(e), w)
    case Ok(content) => WriteStep(w, f, path, content)
  }

  /**
    Create succeeds exactly when the plist can be built and written and, for
    a daemon, `launchctl` can be spawned; it never removes a file.
  */
  function CreateSpec(s: Settings, f: Faults, w: World): (o: (Result<()>, World))
    ensures o.0.Ok? <==> f.currentExe.Some? && PathOf(s) !in f.readOnly && (s.isAgent || f.canSpawn)
    ensures o.1.files.Keys == if f.currentExe.Some? && PathOf(s) !in f.readOnly
                             then w.files.Keys + {PathOf(s)} else w.files.Keys
  {
    var written := WritePlistSpec(s, f, w, PathOf(s));
    if written.0.Err? then written
    else if !s.isAgent then LaunchctlStep(written.1, f, Load(PathOf(s)))
    else (Ok(()), written.1)
  }

  /**
    Delete succeeds exactly when the plist is there and removable and, for a
    daemon, `launchctl` can be spawned; only a successful delete changes the files.
  */
  function DeleteSpec(s: Settings, f: Faults, w: World): (o: (Result<()>, World))
    ensures o.0.Ok? <==> PathOf(s) in w.files && PathOf(s) !in f.readOnly && (s.isAgent || f.canSpawn)
    ensures o.1.files == if o.0.Ok? then w.files - {PathOf(s)} else w.files
  {
    if !s.isAgent then
      var unloaded := LaunchctlStep(w, f, Unload(PathOf(s)));
      if unloaded.0.Err? then unloaded else RemoveStep(unloaded.1, f, PathOf(s))
    else RemoveStep(w, f, PathOf(s))
  }

  function StartSpec(s: Settings, f: Faults, w: World): (Result<()>, World) {
    LaunchctlStep(w, f, Start(s.serviceName))
  }

  function StopSpec(s: Settings, f: Faults, w: World): (Result<()>, World) {
    LaunchctlStep(w, f, Stop(s.serviceName))
  }

  function LoadSpec(s: Settings, f: Faults, w: World): (Result<()>, World) {
    LaunchctlStep(w, f, Load(PathOf(s)))
  }

  function UnloadSpec(s: Settings, f: Faults, w: World): (Result<()>, World) {
    LaunchctlStep(w, f, Unload(PathOf(s)))
  }

  class MacosController {
    var serviceName: string
    var displayName: string
    var description: string
    var isAgent: bool
    var sessionTypes: Option<seq<TargetSession>>
    var keepAlive: bool

    /** A daemon with no session types and keep-alive on; the names are kept as given. */
    constructor (serviceName: string, displayName: string, description: string)
      ensures this.serviceName == serviceName
      ensures this.displayName == displayName
      ensures this.description == description
      ensures !isAgent && sessionTypes == None && keepAlive
    {
      this.serviceName := serviceName;
      this.displayName := displayName;
      this.description := description;
      this.isAgent := false;
      this.sessionTypes := None;
      this.keepAlive := true;
    }

    function Config(): Settings
      reads this
    {
      Settings(serviceName, displayName, description, isAgent, sessionTypes, keepAlive)
    }

    /**
      Builds the plist text piece by piece. `currentExe` is the running
      executable as the environment reports it, None when it cannot.
    */
    method GetPlistContent(currentExe: Option<string>) returns (r: Result<string>)
      ensures r == PlistContent(Config(), currentExe)
    {
      if currentExe.None? {
        return Err(CurrentExeFailed);
      }
      var exe := currentExe.value;
      var workingDirectory := Pop(exe);

      var plist := Header;
      plist := plist + Skeleton(serviceName, exe, workingDirectory);
      ghost var fixedEntries := plist;

      if isAgent {
        if sessionTypes.Some? {
          var types := sessionTypes.value;
          plist := plist + Key(SessionKey) + ArrayOpen;
          ghost var arrayStart := plist;
          for i := 0 to |types|
            invariant plist == arrayStart + Items(Names(types[..i]))
          {
            ghost var done := Names(types[..i]);
            var item := Item(Display(types[i]));
            NamesOfPrefix(types, i);
            ItemsSnoc(done, Display(types[i]));
            Assoc(arrayStart, Items(done), item);
            plist := plist + item;
          }
          plist := plist + ArrayClose;
          assert plist == fixedEntries + SessionBlock(isAgent, sessionTypes) by {
            assert types[..|types|] == types;
            SessionBlockPieces(types);
            ghost var items := Items(Names(types));
            Assoc(fixedEntries, Key(SessionKey), ArrayOpen);
            Assoc(fixedEntries, Key(SessionKey) + ArrayOpen, items);
            Assoc(fixedEntries, Key(SessionKey) + ArrayOpen + items, ArrayClose);
          }
        }
      }
      ghost var sessionBlock := SessionBlock(isAgent, sessionTypes);
      assert plist == fixedEntries + sessionBlock;

      if keepAlive {
        plist := plist + Entry("KeepAlive", True);
      }
      ghost var keepAliveBlock := KeepAliveBlock(keepAlive);
      assert plist == fixedEntries + sessionBlock + keepAliveBlock;

      plist := plist + Footer;
      PlistTextPieces(serviceName, exe, isAgent, sessionTypes, keepAlive);
      r := Ok(plist);
    }

    method WritePlist(host: Host, path: string) returns (r: Result<()>)
      modifies host
      ensures (r, host.State()) == WritePlistSpec(Config(), host.faults, old(host.State()), path)
    {
      var content := GetPlistContent(host.faults.currentExe);
      if content.Err? {
        return Err(content.error);
      }
      r := host.WriteFile(path, content.value);
    }

    /** Writes the plist, then, for a daemon only, loads it. */
    method Create(host: Host) returns (r: Result<()>)
      modifies host
      ensures (r, host.State()) == CreateSpec(Config(), host.faults, old(host.State()))
    {
      var path := PlistPath(isAgent, serviceName);
      r := WritePlist(host, path);
      if r.Err? {
        return;
      }
      if !isAgent {
        r := host.Launchctl(Environment.Load(path));
        return;
      }
      r := Ok(());
    }

    /** For a daemon only, unloads first; then removes the plist. */
    method Delete(host: Host) returns (r: Result<()>)
      modifies host
      ensures (r, host.State()) == DeleteSpec(Config(), host.faults, old(host.State()))
    {
      var path := PlistPath(isAgent, serviceName);
      if !isAgent {
        r := host.Launchctl(Environment.Unload(path));
        if r.Err? {
          return;
        }
      }
      r := host.RemoveFile(path);
    }

    method Start(host: Host) returns (r: Result<()>)
      modifies host
      ensures (r, host.State()) == StartSpec(Config(), host.faults, old(host.State()))
    {
      r := host.Launchctl(Environment.Start(serviceName));
    }

    method Stop(host: Host) returns (r: Result<()>)
      modifies host
      ensures (r, host.State()) == StopSpec(Config(), host.faults, old(host.State()))
    {
      r := host.Launchctl(Environment.Stop(serviceName));
    }

    method Load(host: Host) returns (r: Result<()>)
      modifies host
      ensures (r, host.State()) == LoadSpec(Config(), host.faults, old(host.State()))
    {
      r := host.Launchctl(Environment.Load(PlistPath(isAgent, serviceName)));
    }

    method Unload(host: Host) returns (r: Result<()>)
      modifies host
      ensures (r, host.State()) == UnloadSpec(Config(), host.faults, old(host.State()))
    {
      r := host.Launchctl(Environment.Unload(PlistPath(isAgent, serviceName)));
    }
  }
}

=== FILE: controller_properties.dfy ===
/**
  What the controller's operations guarantee, stated over their effect on
  the world: the order of effects, the first-error abort, the asymmetry
  between agents and daemons, and that every operation targets one path.
*/
module ControllerProperties {
  import opened Base
  import opened Session
  import opened Paths
  import opened Plist
  import opened PlistReader
  import opened Environment
  import opened Controller

  /** No fault stands in the way of the controller's own steps. */
  predicate NoFaults(s: Settings, f: Faults) {
    f.currentExe.Some? && PathOf(s) !in f.readOnly && f.canSpawn
  }

  /** When the plist cannot be produced or written, create stops there: nothing changes and launchctl is never run. */
  lemma CreateStopsAtWriteFailure(s: Settings, f: Faults, w: World)
    requires f.currentExe.None? || PathOf(s) in f.readOnly
    ensures CreateSpec(s, f, w).1 == w
    ensures CreateSpec(s, f, w).0
         == Err(if f.currentExe.None? then CurrentExeFailed else WriteFailed(PathOf(s)))
  {
  }

  /** An agent is only written: Ok, with no launchctl call and nothing loaded. */
  lemma CreateAgentOnlyWrites(s: Settings, f: Faults, w: World)
    requires s.isAgent && f.currentExe.Some? && PathOf(s) !in f.readOnly
    ensures CreateSpec(s, f, w).0 == Ok(())
    ensures CreateSpec(s, f, w).1
         == w.(files := w.files[PathOf(s) := PlistText(s.serviceName, f.currentExe.value, true, s.sessionTypes, s.keepAlive)],
               log := w.log + [Wrote(PathOf(s))])
  {
  }

  /**
    A daemon is written, then loaded, and create returns the load's result.
    When the load fails the written plist stays on disk.
  */
  lemma CreateDaemonWritesThenLoads(s: Settings, f: Faults, w: World)
    requires !s.isAgent && f.currentExe.Some? && PathOf(s) !in f.readOnly
    ensures var (r, w') := CreateSpec(s, f, w);
      && w'.files == w.files[PathOf(s) := PlistText(s.serviceName, f.currentExe.value, false, s.sessionTypes, s.keepAlive)]
      && (r.Ok? <==> f.canSpawn)
      && (r.Err? ==> r.error == SpawnFailed(Load(PathOf(s))) && w'.log == w.log + [Wrote(PathOf(s))])
      && (r.Ok? ==> w'.log == w.log + [Wrote(PathOf(s)), Ran(Load(PathOf(s)))] && PathOf(s) in w'.loaded)
  {
  }

  /** A daemon whose unload fails is not deleted: the error is returned and nothing changes. */
  lemma DeleteDaemonStopsAtUnloadFailure(s: Settings, f: Faults, w: World)
    requires !s.isAgent && !f.canSpawn
    ensures DeleteSpec(s, f, w) == (Err(SpawnFailed(Unload(PathOf(s)))), w)
  {
  }

  /** A successful delete: daemons are unloaded and then removed; agents are only removed and stay as loaded as they were. */
  lemma DeleteOrder(s: Settings, f: Faults, w: World)
    requires DeleteSpec(s, f, w).0.Ok?
    ensures var w' := DeleteSpec(s, f, w).1;
      && PathOf(s) in w.files
      && w'.files == w.files - {PathOf(s)}
      && (!s.isAgent ==> w'.log == w.log + [Ran(Unload(PathOf(s))), Removed(PathOf(s))] && PathOf(s) !in w'.loaded)
      && (s.isAgent ==> w'.log == w.log + [Removed(PathOf(s))] && w'.loaded == w.loaded)
  {
  }

  /** Deleting a service whose plist is absent always fails and removes nothing. */
  lemma DeleteWithoutPlistFails(s: Settings, f: Faults, w: World)
    requires PathOf(s) !in w.files
    ensures DeleteSpec(s, f, w).0.Err?
    ensures DeleteSpec(s, f, w).1.files == w.files
  {
  }

  /** With its plist on disk and launchctl available, delete succeeds and removes exactly that plist. */
  lemma DeleteRemovesPlist(s: Settings, f: Faults, w: World)
    requires f.canSpawn && PathOf(s) in w.files && PathOf(s) !in f.readOnly
    ensures DeleteSpec(s, f, w).0 == Ok(())
    ensures DeleteSpec(s, f, w).1.files == w.files - {PathOf(s)}
    ensures !s.isAgent ==> PathOf(s) !in DeleteSpec(s, f, w).1.loaded
  {
  }

  /**
    Create followed by delete removes exactly the plist create wrote: create
    and delete compute the same path. A daemon ends up unloaded.
  */
  lemma {:induction false} CreateThenDelete(s: Settings, f: Faults, w: World)
    requires NoFaults(s, f)
    ensures var created := CreateSpec(s, f, w);
      var deleted := DeleteSpec(s, f, created.1);
      && created.0 == Ok(())
      && deleted.0 == Ok(())
      && deleted.1.files == w.files - {PathOf(s)}
      && (!s.isAgent ==> PathOf(s) !in deleted.1.loaded)
  {
    CreateSucceeds(s, f, w);
    DeleteRemovesPlist(s, f, CreateSpec(s, f, w).1);
  }

  /** Without faults create succeeds, and apart from its plist the files are as they were. */
  lemma CreateSucceeds(s: Settings, f: Faults, w: World)
    requires NoFaults(s, f)
    ensures CreateSpec(s, f, w).0 == Ok(())
    ensures PathOf(s) in CreateSpec(s, f, w).1.files
    ensures CreateSpec(s, f, w).1.files - {PathOf(s)} == w.files - {PathOf(s)}
  {
    var content := PlistText(s.serviceName, f.currentExe.value, s.isAgent, s.sessionTypes, s.keepAlive);
    if s.isAgent {
      CreateAgentOnlyWrites(s, f, w);
    } else {
      CreateDaemonWritesThenLoads(s, f, w);
    }
    UpdateThenRemove(w.files, PathOf(s), content);
  }

  lemma UpdateThenRemove(files: map<string, string>, path: string, content: string)
    ensures files[path := content] - {path} == files - {path}
  {
  }

  /** Create does not detect an earlier registration: creating twice succeeds and leaves the same plist. */
  lemma CreateTwiceSucceeds(s: Settings, f: Faults, w: World)
    requires NoFaults(s, f)
    ensures var once := CreateSpec(s, f, w);
      var twice := CreateSpec(s, f, once.1);
      && twice.0 == Ok(())
      && twice.1.files == once.1.files
  {
    var once := CreateSpec(s, f, w);
    if s.isAgent {
      CreateAgentOnlyWrites(s, f, w);
      CreateAgentOnlyWrites(s, f, once.1);
    } else {
      CreateDaemonWritesThenLoads(s, f, w);
      CreateDaemonWritesThenLoads(s, f, once.1);
    }
    UpdateTwice(w.files, PathOf(s), PlistText(s.serviceName, f.currentExe.value, s.isAgent, s.sessionTypes, s.keepAlive));
  }

  lemma UpdateTwice(files: map<string, string>, path: string, content: string)
    ensures files[path := content][path := content] == files[path := content]
  {
  }

  /** Load and unload act on the plist create wrote, for agents as for daemons. */
  lemma LoadAndUnloadAfterCreate(s: Settings, f: Faults, w: World)
    requires NoFaults(s, f)
    ensures var created := CreateSpec(s, f, w).1;
      && LoadSpec(s, f, created) == (Ok(()), created.(loaded := created.loaded + {PathOf(s)}, log := created.log + [Ran(Load(PathOf(s)))]))
      && PathOf(s) !in UnloadSpec(s, f, LoadSpec(s, f, created).1).1.loaded
  {
  }

  /**
    launchctl's exit status is never consulted: loading a path with no
    plist behind it reports success while launchd loads nothing.
  */
  lemma LoadOfMissingPlistSucceeds(s: Settings, f: Faults, w: World)
    requires f.canSpawn && PathOf(s) !in w.files
    ensures LoadSpec(s, f, w).0 == Ok(())
    ensures LoadSpec(s, f, w).1.loaded == w.loaded
  {
  }

  /** Start and stop address launchd by name: one launchctl call, no file touched, Ok whenever launchctl can be spawned. */
  lemma StartAndStopTouchNoFiles(s: Settings, f: Faults, w: World)
    ensures StartSpec(s, f, w).1.files == w.files && StopSpec(s, f, w).1.files == w.files
    ensures StartSpec(s, f, w).0.Ok? <==> f.canSpawn
    ensures StopSpec(s, f, w).0.Ok? <==> f.canSpawn
    ensures f.canSpawn ==> StartSpec(s, f, w).1.log == w.log + [Ran(Environment.Start(s.serviceName))]
    ensures f.canSpawn ==> StopSpec(s, f, w).1.log == w.log + [Ran(Environment.Stop(s.serviceName))]
  {
  }

  /**
    The plist create writes reads back as the controller's settings (for a
    service name and executable path free of '<', which are inserted unescaped).
  */
  lemma {:induction false} CreateWritesDescriptor(s: Settings, f: Faults, w: World)
    requires f.currentExe.Some? && PathOf(s) !in f.readOnly
    requires PlainText(s.serviceName) && PlainText(f.currentExe.value)
    ensures var files := CreateSpec(s, f, w).1.files;
      && PathOf(s) in files
      && Decode(files[PathOf(s)]) == Some(Descriptor(
           false, s.serviceName, [f.currentExe.value], Pop(f.currentExe.value), true,
           if s.isAgent then s.sessionTypes else None, s.keepAlive))
  {
    DecodePlistText(s.serviceName, f.currentExe.value, s.isAgent, s.sessionTypes, s.keepAlive);
  }

  /**
    A GUI agent "sample.agent" with keep-alive, run from /usr/local/bin/sample:
    create writes /Library/LaunchAgents/sample.agent.plist, whose Label is the
    service name, whose only session type is Aqua and which keeps the service
    alive, and runs no launchctl command.
  */
  lemma {:induction false} SampleAgent(w: World)
    ensures var s := Settings("sample.agent", "Sample", "A sample agent", true, Some([GUI]), true);
      var f := Faults(Some("/usr/local/bin/sample"), {}, true);
      var created := CreateSpec(s, f, w);
      && PathOf(s) == Directory(true) + "sample.agent" + ".plist"
      && created.0 == Ok(())
      && created.1.log == w.log + [Wrote(PathOf(s))]
      && Decode(created.1.files[PathOf(s)]) == Some(Descriptor(
           false, "sample.agent", ["/usr/local/bin/sample"], "/usr/local/bin", true, Some([GUI]), true))
      && Names([GUI]) == ["Aqua"]
  {
    var s := Settings("sample.agent", "Sample", "A sample agent", true, Some([GUI]), true);
    var f := Faults(Some("/usr/local/bin/sample"), {}, true);
    SamplePaths();
    SampleValuesArePlain();
    CreateAgentOnlyWrites(s, f, w);
    CreateWritesDescriptor(s, f, w);
  }

  lemma SampleValuesArePlain()
    ensures PlainText("sample.agent") && PlainText("/usr/local/bin/sample")
  {
  }

  lemma SamplePaths()
    ensures PlistPath(true, "sample.agent") == Directory(true) + "sample.agent" + ".plist"
    ensures Pop("/usr/local/bin/sample") == "/usr/local/bin"
  {
    SamplePlistPath();
    SampleWorkingDirectory();
  }

  lemma SamplePlistPath()
    ensures PlistPath(true, "sample.agent") == Directory(true) + "sample.agent" + ".plist"
  {
    assert "sample.agent"[0] == 's';
    PlistPathInDirectory(true, "sample.agent");
  }

  lemma SampleWorkingDirectory()
    ensures Pop("/usr/local/bin/sample") == "/usr/local/bin"
  {
    assert '/' !in "sample";
    assert "/usr/local/bin"[13] == 'n';
    PopJoin("/usr/local/bin", "sample");
    assert Join("/usr/local/bin", "sample") == "/usr/local/bin/sample";
  }
}

=== FILE: environment.dfy ===
/**
  The world the controller acts on: the files on disk, what launchd has
  loaded and started, and a log of every effect that took place. Failures
  are injected through Faults: whether the running executable can be
  located, which paths cannot be written or removed, and whether the
  `launchctl` tool can be spawned at all.
*/
module Environment {
  import opened Base

  /** The four `launchctl` subcommands the controller issues. */
  datatype Command = Load(path: string) | Unload(path: string) | Start(name: string) | Stop(name: string)

  /** The controller's errors, each carrying the operation's target. */
  datatype Error =
    | CurrentExeFailed
    | WriteFailed(path: string)
    | RemoveFailed(path: string)
    | SpawnFailed(command: Command)

  datatype Result<+T> = Ok(value: T) | Err(error: Error) {

    predicate IsFailure() {
      Err?
    }

    function PropagateFailure<U>(): Result<U>
      requires Err?
    {
      Err(error)
    }

    function Extract(): T
      requires Ok?
    {
      value
    }
  }

  /** An effect that actually happened, in the order it happened. */
  datatype Effect = Wrote(path: string) | Removed(path: string) | Ran(command: Command)

  datatype World = World(
    files: map<string, string>,
    loaded: set<string>,
    started: set<string>,
    log: seq<Effect>)

  datatype Faults = Faults(
    currentExe: Option<string>,
    readOnly: set<string>,
    canSpawn: bool)

  /** `File::create` + `write_all`: creates or truncates the file. */
  function WriteStep(w: World, f: Faults, path: string, content: string): (o: (Result<()>, World))
    ensures o.0.Ok? <==> path !in f.readOnly
    ensures o.1.files == if o.0.Ok? then w.files[path := content] else w.files
    ensures o.1.loaded == w.loaded
  {
    if path in f.readOnly then (Err(WriteFailed(path)), w)
    else (Ok(()), w.(files := w.files[path := content], log := w.log + [Wrote(path)]))
  }

  /** `fs::remove_file`: fails when the file is absent or cannot be removed. */
  function RemoveStep(w: World, f: Faults, path: string): (o: (Result<()>, World))
    ensures o.0.Ok? <==> path in w.files && path !in f.readOnly
    ensures o.1.files == if o.0.Ok? then w.files - {path} else w.files
    ensures o.1.loaded == w.loaded
  {
    if path !in w.files || path in f.readOnly then (Err(RemoveFailed(path)), w)
    else (Ok(()), w.(files := w.files - {path}, log := w.log + [Removed(path)]))
  }

  /**
    What launchd does with a command once `launchctl` runs. Loading a path
    with no file behind it changes nothing; the tool complains on its
    output, which the controller only logs.
  */
  function Launchd(w: World, command: Command): (w': World)
    ensures w'.files == w.files && w'.log == w.log + [Ran(command)]
  {
    var w := w.(log := w.log + [Ran(command)]);
    match command
    case Load(path) => if path in w.files then w.(loaded := w.loaded + {path}) else w
    case Unload(path) => w.(loaded := w.loaded - {path})
    case Start(name) => w.(started := w.started + {name})
    case Stop(name) => w.(started := w.started - {name})
  }

  /**
    One `launchctl_*` helper: spawn the tool, log its output, return.
    It fails only when the tool cannot be spawned; its exit status is never
    looked at, so whatever launchd makes of the command, the result is Ok.
  */
  function LaunchctlStep(w: World, f: Faults, command: Command): (o: (Result<()>, World))
    ensures o.0.Err? <==> !f.canSpawn
    ensures o.0.Err? ==> o.0.error == SpawnFailed(command) && o.1 == w
    ensures o.0.Ok? ==> o.1.files == w.files && o.1.log == w.log + [Ran(command)]
  {
    if !f.canSpawn then (Err(SpawnFailed(command)), w) else (Ok(()), Launchd(w, command))
  }

  /** The machine the controller runs on, updated in place by each effect. */
  class Host {
    var files: map<string, string>
    var loaded: set<string>
    var started: set<string>
    var log: seq<Effect>
    const faults: Faults

    constructor (files: map<string, string>, faults: Faults)
      ensures State() == World(files, {}, {}, [])
      ensures this.faults == faults
    {
      this.files := files;
      this.loaded := {};
      this.started := {};
      this.log := [];
      this.faults := faults;
    }

    function State(): World
      reads this
    {
      World(files, loaded, started, log)
    }

    method WriteFile(path: string, content: string) returns (r: Result<()>)
      modifies this
      ensures (r, State()) == WriteStep(old(State()), faults, path, content)
    {
      if path in faults.readOnly {
        return Err(WriteFailed(path));
      }
      files := files[path := content];
      log := log + [Wrote(path)];
      r := Ok(());
    }

    method RemoveFile(path: string) returns (r: Result<()>)
      modifies this
      ensures (r, State()) == RemoveStep(old(State()), faults, path)
    {
      if path !in files || path in faults.readOnly {
        return Err(RemoveFailed(path));
      }
      files := files - {path};
      log := log + [Removed(path)];
      r := Ok(());
    }

    method Launchctl(command: Command) returns (r: Result<()>)
      modifies this
      ensures (r, State()) == LaunchctlStep(old(State()), faults, command)
    {
      if !faults.canSpawn {
        return Err(SpawnFailed(command));
      }
      log := log + [Ran(command)];
      r := Ok(());
      match command
      case Load(path) =>
        if path in files {
          loaded := loaded + {path};
        }
      case Unload(path) =>
        loaded := loaded - {path};
      case Start(name) =>
        started := started + {name};
      case Stop(name) =>
        started := started - {name};
    }
  }
}

=== FILE: paths.dfy ===
/**
  Path arithmetic used by the controller: `Path::join` / `PathBuf::push`,
  `PathBuf::pop`, and the rule that places a service's plist under
  /Library/LaunchAgents/ or /Library/LaunchDaemons/.
  Paths are Unix paths: '/' is the only separator and a path is absolute
  when it starts with '/'.
*/
module Paths {
  import opened Base

  predicate IsAbsolute(p: string) {
    |p| > 0 && p[0] == '/'
  }

  predicate EndsWith(s: string, suffix: string) {
    |suffix| <= |s| && s[|s| - |suffix|..] == suffix
  }

  /**
    `base.join(p)`: an absolute `p` replaces `base`; otherwise a separator is
    inserted only when `base` is non-empty and does not already end in one.
  */
  function Join(base: string, p: string): (r: string)
    ensures IsAbsolute(p) ==> r == p
    ensures !IsAbsolute(p) ==> base <= r
    ensures EndsWith(r, p)
  {
    if IsAbsolute(p) then p
    else if |base| > 0 && base[|base| - 1] != '/' then base + "/" + p
    else base + p
  }

  const Library: string := "/Library/"

  function Subdirectory(isAgent: bool): string {
    if isAgent then "LaunchAgents/" else "LaunchDaemons/"
  }

  /** The well-known directory of agents (/Library/LaunchAgents/) or of daemons (/Library/LaunchDaemons/). */
  function Directory(isAgent: bool): string {
    Library + Subdirectory(isAgent)
  }

  /** Where the plist of a service lives; recomputed by every operation. */
  function PlistPath(isAgent: bool, serviceName: string): (path: string)
    ensures EndsWith(path, serviceName + ".plist")
  {
    Join(Join(Library, Subdirectory(isAgent)), serviceName + ".plist")
  }

  lemma JoinAfterSeparator(base: string, p: string)
    requires |base| > 0 && base[|base| - 1] == '/' && !IsAbsolute(p)
    ensures Join(base, p) == base + p
  {
  }

  /** The directory ends in a separator; its 16th character tells agents ('A') from daemons ('D'). */
  lemma DirectoryShape(isAgent: bool)
    ensures Join(Library, Subdirectory(isAgent)) == Directory(isAgent)
    ensures |Directory(isAgent)| > 15 && Directory(isAgent)[|Directory(isAgent)| - 1] == '/'
    ensures Directory(isAgent)[15] == if isAgent then 'A' else 'D'
  {
    var sub := Subdirectory(isAgent);
    assert |Library| == 9 && Library[8] == '/';
    assert sub[0] == 'L' && sub[|sub| - 1] == '/';
    assert sub[6] == if isAgent then 'A' else 'D';
    JoinAfterSeparator(Library, sub);
  }

  lemma PlistFileIsRelative(serviceName: string)
    requires !IsAbsolute(serviceName)
    ensures !IsAbsolute(serviceName + ".plist")
  {
    if serviceName == [] {
      assert (serviceName + ".plist")[0] == '.';
    } else {
      assert (serviceName + ".plist")[0] == serviceName[0];
    }
  }

  /** For an ordinary (relative) service name the plist sits in the scope's directory. */
  lemma PlistPathInDirectory(isAgent: bool, serviceName: string)
    requires !IsAbsolute(serviceName)
    ensures PlistPath(isAgent, serviceName) == Directory(isAgent) + serviceName + ".plist"
  {
    DirectoryShape(isAgent);
    PlistFileIsRelative(serviceName);
    JoinAfterSeparator(Directory(isAgent), serviceName + ".plist");
  }

  /**
    A service name starting with '/' replaces the whole directory: the plist
    path is then the name itself plus ".plist", the same for agents and daemons.
  */
  lemma PlistPathOfAbsoluteName(isAgent: bool, serviceName: string)
    requires IsAbsolute(serviceName)
    ensures PlistPath(isAgent, serviceName) == serviceName + ".plist"
    ensures PlistPath(true, serviceName) == PlistPath(false, serviceName)
  {
    assert (serviceName + ".plist")[0] == '/';
  }

  /** Different (scope, relative name) pairs never share a plist path. */
  lemma PlistPathInjective(isAgent1: bool, name1: string, isAgent2: bool, name2: string)
    requires !IsAbsolute(name1) && !IsAbsolute(name2)
    requires PlistPath(isAgent1, name1) == PlistPath(isAgent2, name2)
    ensures isAgent1 == isAgent2 && name1 == name2
  {
    PlistPathInDirectory(isAgent1, name1);
    PlistPathInDirectory(isAgent2, name2);
    DirectoryShape(isAgent1);
    DirectoryShape(isAgent2);
    var p := PlistPath(isAgent1, name1);
    var d := Directory(isAgent1);
    assert |name1| == |name2|;
    assert name1 == p[|d|..|d| + |name1|];
    assert name2 == p[|d|..|d| + |name2|];
  }

  /**
    Absolute names escape the injectivity above: an agent (or daemon) whose
    name is the other scope's directory followed by a relative name gets
    exactly that other service's plist path.
  */
  lemma {:induction false} AbsoluteNameCrossesScope(isAgent: bool, serviceName: string)
    requires !IsAbsolute(serviceName)
    ensures PlistPath(!isAgent, Directory(isAgent) + serviceName) == PlistPath(isAgent, serviceName)
  {
    var crossing := Directory(isAgent) + serviceName;
    assert crossing[0] == '/';
    PlistPathOfAbsoluteName(!isAgent, crossing);
    PlistPathInDirectory(isAgent, serviceName);
  }

  /** Drops trailing separators, but never the root itself. */
  function TrimTrailingSeparators(p: string): (r: string)
    ensures r <= p
    ensures |r| <= 1 || r[|r| - 1] != '/'
    ensures (|p| > 0) == (|r| > 0)
  {
    if |p| > 1 && p[|p| - 1] == '/' then TrimTrailingSeparators(p[..|p| - 1]) else p
  }

  /** The index of the last separator of `p`, if any. */
  function LastSeparator(p: string): (i: Option<nat>)
    ensures i.Some? ==> i.value < |p| && p[i.value] == '/' && '/' !in p[i.value + 1..]
    ensures i.None? ==> '/' !in p
  {
    if p == [] then None
    else if p[|p| - 1] == '/' then Some(|p| - 1)
    else
      var i := LastSeparator(p[..|p| - 1]);
      assert i.Some? ==> p[i.value + 1..] == p[..|p| - 1][i.value + 1..] + [p[|p| - 1]];
      assert i.None? ==> p == p[..|p| - 1] + [p[|p| - 1]];
      i
  }

  /**
    `PathBuf::pop`: truncates to the parent path. A path with no parent (the
    root, or the empty path) is left as it is; a single relative component
    becomes the empty path.
  */
  function Pop(p: string): (r: string)
    ensures r <= p
  {
    var q := TrimTrailingSeparators(p);
    if q == [] || q == "/" then p
    else match LastSeparator(q)
      case None => ""
      case Some(i) => if i == 0 then "/" else TrimTrailingSeparators(q[..i])
  }

  /**
    Popping undoes joining one plain component onto a directory. A `.`
    component, or a directory ending in one, is excluded: `Path::parent`
    skips a trailing `.`, which `Pop` does not model.
  */
  lemma PopJoin(dir: string, component: string)
    requires component != [] && component != "." && '/' !in component
    requires !EndsWith(dir, "/.")
    requires dir == [] || dir == "/" || dir[|dir| - 1] != '/'
    ensures Pop(Join(dir, component)) == dir
  {
    assert !IsAbsolute(component) by { assert component[0] in component; }
    if dir == [] {
      PopComponent(component);
    } else if dir == "/" {
      assert Join(dir, component) == "/" + component;
      PopUnder([], component);
    } else {
      assert Join(dir, component) == dir + "/" + component;
      PopUnder(dir, component);
    }
  }

  lemma PopComponent(component: string)
    requires component != [] && '/' !in component
    ensures Pop(component) == []
  {
    assert component[|component| - 1] in component;
    assert TrimTrailingSeparators(component) == component;
    assert component != "/" by { assert component[0] in component; }
  }

  lemma PopUnder(dir: string, component: string)
    requires component != [] && '/' !in component
    requires dir == [] || dir[|dir| - 1] != '/'
    ensures Pop(dir + "/" + component) == if dir == [] then "/" else dir
  {
    var joined := dir + "/" + component;
    assert joined[|joined| - 1] == component[|component| - 1] by {
      assert component[|component| - 1] in component;
    }
    assert TrimTrailingSeparators(joined) == joined;
    assert |joined| > 1;
    SeparatorBefore(dir, component);
    assert joined[..|dir|] == dir;
    assert TrimTrailingSeparators(dir) == dir;
  }

  lemma {:induction false} SeparatorBefore(dir: string, component: string)
    requires '/' !in component
    ensures LastSeparator(dir + "/" + component) == Some(|dir|)
  {
    var s := dir + "/" + component;
    if component != [] {
      var shorter := component[..|component| - 1];
      assert component[|component| - 1] in component;
      assert forall c :: c in shorter ==> c in component;
      SeparatorBefore(dir, shorter);
      assert s[..|s| - 1] == dir + "/" + shorter;
    }
  }
}

=== FILE: plist.dfy ===
/**
  The launchd property list the controller writes, as text in Apple's
  PropertyList-1.0 DTD format. Each piece below is one of the chunks the
  controller appends; PlistText puts them together in the controller's order.
  Values are inserted as they are, without XML escaping.
*/
module Plist {
  import opened Base
  import opened Session
  import Paths

  const XmlDeclaration: string := "<?xml version=\"1.0\" encoding=\"UTF-8\"?>"
  const Doctype: string := "<!DOCTYPE plist PUBLIC \"-//Apple//DTD PLIST 1.0//EN\" \"http://www.apple.com/DTDs/PropertyList-1.0.dtd\">"

  /** The XML declaration, DOCTYPE and opening tags; the text begins with a newline. */
  const Header: string := "\n" + (XmlDeclaration + ("\n" + (Doctype + "\n<plist version=\"1.0\">\n<dict>")))

  /** The closing tags. */
  const Footer: string := "\n</dict>\n</plist>"

  const True: string := "<true/>"
  const False: string := "<false/>"

  function Key(name: string): string {
    "\n<key>" + name + "</key>\n"
  }

  /** A key followed by its value. */
  function Entry(name: string, value: string): string {
    Key(name) + value
  }

  function StringElement(value: string): string {
    "<string>" + value + "</string>"
  }

  /** One array element, on a line of its own. */
  function Item(value: string): string {
    "\n" + StringElement(value)
  }

  function Items(values: seq<string>): string {
    if values == [] then "" else Item(values[0]) + Items(values[1..])
  }

  /** The opening of an array; the controller appends it together with the key. */
  const ArrayOpen: string := "<array>"
  const ArrayClose: string := "\n</array>"

  function Array(values: seq<string>): string {
    ArrayOpen + Items(values) + ArrayClose
  }

  /** The fixed entries every plist has, with the three values substituted. */
  function Skeleton(serviceName: string, program: string, workingDirectory: string): string {
    Entry("Disabled", False)
    + Entry("Label", StringElement(serviceName))
    + Entry("ProgramArguments", Array([program]))
    + Entry("WorkingDirectory", StringElement(workingDirectory))
    + Entry("RunAtLoad", True)
  }

  const SessionKey: string := "LimitLoadToSessionType"

  /** The LimitLoadToSessionType entry: written only for an agent with session types set. */
  function SessionBlock(isAgent: bool, sessionTypes: Option<seq<TargetSession>>): string {
    if isAgent && sessionTypes.Some? then Entry(SessionKey, Array(Names(sessionTypes.value))) else ""
  }

  /** The KeepAlive entry: written only when keep-alive is requested. */
  function KeepAliveBlock(keepAlive: bool): string {
    if keepAlive then Entry("KeepAlive", True) else ""
  }

  /** The whole plist the controller produces for the given fields and executable. */
  function PlistText(serviceName: string, exe: string, isAgent: bool,
                     sessionTypes: Option<seq<TargetSession>>, keepAlive: bool): string
  {
    Header + (Skeleton(serviceName, exe, Paths.Pop(exe))
      + SessionBlock(isAgent, sessionTypes) + KeepAliveBlock(keepAlive) + Footer)
  }

  /** Every plist opens with the header, whose first character is a newline, and closes with the footer. */
  lemma PlistTextFrame(serviceName: string, exe: string, isAgent: bool,
                       sessionTypes: Option<seq<TargetSession>>, keepAlive: bool)
    ensures var text := PlistText(serviceName, exe, isAgent, sessionTypes, keepAlive);
      Header <= text && text[0] == '\n' && Paths.EndsWith(text, Footer)
  {
    var body := Skeleton(serviceName, exe, Paths.Pop(exe))
      + SessionBlock(isAgent, sessionTypes) + KeepAliveBlock(keepAlive);
    HeaderStartsWithNewline();
    PrefixOfConcat(Header, body + Footer);
    assert Header + body + Footer == Header + (body + Footer);
    SuffixOfConcat(Header + body, Footer);
  }

  /** The plist as the controller appends it: header, fixed entries, optional blocks, footer, left to right. */
  lemma PlistTextPieces(serviceName: string, exe: string, isAgent: bool,
                        sessionTypes: Option<seq<TargetSession>>, keepAlive: bool)
    ensures PlistText(serviceName, exe, isAgent, sessionTypes, keepAlive)
         == Header + Skeleton(serviceName, exe, Paths.Pop(exe))
            + SessionBlock(isAgent, sessionTypes) + KeepAliveBlock(keepAlive) + Footer
  {
    var skeleton, sessionBlock, keepAliveBlock :=
      Skeleton(serviceName, exe, Paths.Pop(exe)), SessionBlock(isAgent, sessionTypes), KeepAliveBlock(keepAlive);
    Assoc(Header, skeleton, sessionBlock);
    Assoc(Header, skeleton + sessionBlock, keepAliveBlock);
    Assoc(Header, skeleton + sessionBlock + keepAliveBlock, Footer);
  }

  lemma HeaderStartsWithNewline()
    ensures |Header| > 0 && Header[0] == '\n'
  {
  }

  lemma SuffixOfConcat(a: string, b: string)
    ensures Paths.EndsWith(a + b, b)
  {
    assert (a + b)[|a|..] == b;
  }

  lemma PrefixOfConcat(a: string, b: string)
    ensures a <= a + b
    ensures |a| > 0 ==> (a + b)[0] == a[0]
  {
  }

  /** The LimitLoadToSessionType entry in the pieces the controller appends. */
  lemma SessionBlockPieces(sessionTypes: seq<TargetSession>)
    ensures SessionBlock(true, Some(sessionTypes))
         == Key(SessionKey) + ArrayOpen + Items(Names(sessionTypes)) + ArrayClose
  {
    var k, items := Key(SessionKey), Items(Names(sessionTypes));
    assert k + (ArrayOpen + items + ArrayClose) == k + ArrayOpen + items + ArrayClose;
  }

  /** Concatenation regrouped, stated on plain variables so that long literals are never unfolded. */
  lemma Assoc(a: string, b: string, c: string)
    ensures a + b + c == a + (b + c)
  {
  }

  /** Appending one more element to a list appends one more item to its text. */
  lemma {:induction false} ItemsSnoc(values: seq<string>, value: string)
    ensures Items(values + [value]) == Items(values) + Item(value)
  {
    if values == [] {
      assert [value][1..] == [];
    } else {
      assert (values + [value])[1..] == values[1..] + [value];
      ItemsSnoc(values[1..], value);
    }
  }
}

=== FILE: plist_reader.dfy ===
/**
  A reader for exactly the plist shape the controller writes. It is the
  partner of Plist.PlistText: reading back a generated plist recovers every
  value that went into it, which pins down the order of the entries, the
  fixed values of Disabled and RunAtLoad, the single program argument and
  when the optional entries are present.
*/
module PlistReader {
  import opened Base
  import opened Session
  import opened Plist
  import Paths

  /** The values a plist of this shape carries. */
  datatype Descriptor = Descriptor(
    disabled: bool,
    serviceLabel: string,
    programArguments: seq<string>,
    workingDirectory: string,
    runAtLoad: bool,
    limitLoadToSessionType: Option<seq<TargetSession>>,
    keepAlive: bool)

  /** Consumes the literal `lit` at the front of `s`. */
  function Lit(s: string, lit: string): (rest: Option<string>)
    ensures rest.Some? <==> lit <= s
    ensures rest.Some? ==> s == lit + rest.value
  {
    if lit <= s then Some(s[|lit|..]) else None
  }

  /** Splits `s` before its first '<': the character data of an element. */
  function TakeText(s: string): (r: (string, string))
    ensures r.0 + r.1 == s
    ensures '<' !in r.0
    ensures r.1 == [] || r.1[0] == '<'
  {
    if s == [] || s[0] == '<' then ([], s)
    else
      var r := TakeText(s[1..]);
      var text := [s[0]] + r.0;
      assert s == text + r.1 by {
        assert s == [s[0]] + s[1..];
      }
      assert '<' !in text by {
        assert forall c :: c in text ==> c == s[0] || c in r.0;
      }
      (text, r.1)
  }

  function ReadString(s: string): (r: Option<(string, string)>)
    ensures r.Some? ==> |r.value.1| < |s|
  {
    var a :- Lit(s, "<string>");
    var t := TakeText(a);
    var b :- Lit(t.1, "</string>");
    Some((t.0, b))
  }

  function ReadBool(s: string): (r: Option<(bool, string)>)
    ensures r.Some? ==> |r.value.1| < |s|
  {
    if True <= s then Some((true, s[|True|..]))
    else if False <= s then Some((false, s[|False|..]))
    else None
  }

  /** Reads `<string>` items up to and including the array's closing tag. */
  function ReadItems(s: string): (r: Option<(seq<string>, string)>)
    ensures r.Some? ==> |r.value.1| < |s|
    decreases |s|
  {
    if ArrayClose <= s then Some(([], s[|ArrayClose|..]))
    else
      var a :- Lit(s, "\n");
      var item :- ReadString(a);
      var more :- ReadItems(item.1);
      Some(([item.0] + more.0, more.1))
  }

  function ReadArray(s: string): (r: Option<(seq<string>, string)>)
  {
    var a :- Lit(s, ArrayOpen);
    ReadItems(a)
  }

  /** Reads the five entries every plist of this shape starts with. */
  function ReadFixed(s: string): (r: Option<(Descriptor, string)>)
  {
    var a :- Lit(s, Key("Disabled"));
    var disabled :- ReadBool(a);
    var b :- Lit(disabled.1, Key("Label"));
    var name :- ReadString(b);
    var c :- Lit(name.1, Key("ProgramArguments"));
    var arguments :- ReadArray(c);
    var d :- Lit(arguments.1, Key("WorkingDirectory"));
    var directory :- ReadString(d);
    var e :- Lit(directory.1, Key("RunAtLoad"));
    var runAtLoad :- ReadBool(e);
    Some((Descriptor(disabled.0, name.0, arguments.0, directory.0, runAtLoad.0, None, false), runAtLoad.1))
  }

  /** The optional LimitLoadToSessionType entry; every name in it must be a known session type. */
  function ReadSessionTypes(s: string): (r: Option<(Option<seq<TargetSession>>, string)>)
  {
    if Key(SessionKey) <= s then
      var names :- ReadArray(s[|Key(SessionKey)|..]);
      var ts :- FromLaunchdNames(names.0);
      Some((Some(ts), names.1))
    else Some((None, s))
  }

  /** The optional KeepAlive entry; launchd treats a missing one as false. */
  function ReadKeepAlive(s: string): (r: Option<(bool, string)>)
  {
    if Key("KeepAlive") <= s then ReadBool(s[|Key("KeepAlive")|..]) else Some((false, s))
  }

  /** Reads a whole plist: header, fixed entries, optional entries, footer and nothing else. */
  function Decode(s: string): (d: Option<Descriptor>)
  {
    var a :- Lit(s, Header);
    var fixed :- ReadFixed(a);
    var sessions :- ReadSessionTypes(fixed.1);
    var keepAlive :- ReadKeepAlive(sessions.1);
    if keepAlive.1 == Footer then
      Some(fixed.0.(limitLoadToSessionType := sessions.0, keepAlive := keepAlive.0))
    else None
  }

  // ---------------------------------------------------------------------
  // Reading back what the builder writes

  /** Text containing no '<' can be embedded in an element and read back. */
  predicate PlainText(v: string) {
    '<' !in v
  }

  lemma NotPrefix(lit: string, s: string, i: nat)
    requires i < |lit| && i < |s| && lit[i] != s[i]
    ensures !(lit <= s)
  {
  }

  lemma LitOf(lit: string, rest: string)
    ensures Lit(lit + rest, lit) == Some(rest)
  {
    assert (lit + rest)[..|lit|] == lit;
    assert (lit + rest)[|lit|..] == rest;
  }

  lemma {:induction false} TakeTextOf(v: string, rest: string)
    requires PlainText(v)
    requires rest == [] || rest[0] == '<'
    ensures TakeText(v + rest) == (v, rest)
  {
    if v != [] {
      assert v[0] in v;
      assert (v + rest)[0] == v[0];
      assert (v + rest)[1..] == v[1..] + rest;
      assert forall c :: c in v[1..] ==> c in v;
      TakeTextOf(v[1..], rest);
      assert [v[0]] + v[1..] == v;
    } else {
      assert v + rest == rest;
    }
  }

  lemma ReadStringOf(v: string, rest: string)
    requires PlainText(v)
    ensures ReadString(StringElement(v) + rest) == Some((v, rest))
  {
    var after := v + ("</string>" + rest);
    assert StringElement(v) + rest == "<string>" + after;
    LitOf("<string>", after);
    TakeTextOf(v, "</string>" + rest);
    LitOf("</string>", rest);
  }

  lemma ReadBoolOf(b: bool, rest: string)
    ensures ReadBool((if b then True else False) + rest) == Some((b, rest))
  {
    var s := (if b then True else False) + rest;
    LitOf(if b then True else False, rest);
    if !b {
      NotPrefix(True, s, 1);
    }
  }

  /** One item in front of `tail` is read, then reading goes on with `tail`. */
  lemma ReadItemsCons(v: string, tail: string)
    requires PlainText(v)
    ensures ReadItems(Item(v) + tail)
         == match ReadItems(tail)
            case None => None
            case Some(more) => Some(([v] + more.0, more.1))
  {
    var s := Item(v) + tail;
    assert s == "\n" + (StringElement(v) + tail);
    assert s[2] == 's';
    NotPrefix(ArrayClose, s, 2);
    LitOf("\n", StringElement(v) + tail);
    ReadStringOf(v, tail);
  }

  lemma {:induction false} ReadItemsOf(values: seq<string>, rest: string)
    requires forall v :: v in values ==> PlainText(v)
    ensures ReadItems(Items(values) + ArrayClose + rest) == Some((values, rest))
  {
    if values == [] {
      assert Items(values) + ArrayClose + rest == ArrayClose + rest;
      LitOf(ArrayClose, rest);
    } else {
      var tail := Items(values[1..]) + ArrayClose + rest;
      var first, others := Item(values[0]), Items(values[1..]);
      assert Items(values) + ArrayClose + rest == first + others + ArrayClose + rest;
      assert first + others + ArrayClose + rest == first + tail;
      assert values[0] in values;
      ReadItemsCons(values[0], tail);
      assert forall v :: v in values[1..] ==> v in values;
      ReadItemsOf(values[1..], rest);
      assert [values[0]] + values[1..] == values;
    }
  }

  lemma ReadArrayOf(values: seq<string>, rest: string)
    requires forall v :: v in values ==> PlainText(v)
    ensures ReadArray(Array(values) + rest) == Some((values, rest))
  {
    assert Array(values) + rest == ArrayOpen + (Items(values) + ArrayClose + rest);
    LitOf(ArrayOpen, Items(values) + ArrayClose + rest);
    ReadItemsOf(values, rest);
  }

  /** The skeleton followed by `rest`, as a right-nested chain of keys and values. */
  lemma SkeletonShape(serviceName: string, program: string, workingDirectory: string, rest: string)
    ensures Skeleton(serviceName, program, workingDirectory) + rest
         == Key("Disabled") + (False + (Key("Label") + (StringElement(serviceName)
            + (Key("ProgramArguments") + (Array([program])
            + (Key("WorkingDirectory") + (StringElement(workingDirectory)
            + (Key("RunAtLoad") + (True + rest)))))))))
  {
    Regroup(Key("Disabled"), False, Key("Label"), StringElement(serviceName),
            Key("ProgramArguments"), Array([program]),
            Key("WorkingDirectory"), StringElement(workingDirectory),
            Key("RunAtLoad"), True, rest);
  }

  /** Regrouping five key/value pairs and a tail, proved on plain variables. */
  lemma Regroup(k1: string, v1: string, k2: string, v2: string, k3: string, v3: string,
                k4: string, v4: string, k5: string, v5: string, rest: string)
    ensures (k1 + v1) + (k2 + v2) + (k3 + v3) + (k4 + v4) + (k5 + v5) + rest
         == k1 + (v1 + (k2 + (v2 + (k3 + (v3 + (k4 + (v4 + (k5 + (v5 + rest)))))))))
  {
    var t5 := k5 + (v5 + rest);
    var t4 := k4 + (v4 + t5);
    var t3 := k3 + (v3 + t4);
    var t2 := k2 + (v2 + t3);
    calc {
      (k1 + v1) + (k2 + v2) + (k3 + v3) + (k4 + v4) + (k5 + v5) + rest;
      (k1 + v1) + (k2 + v2) + (k3 + v3) + (k4 + v4) + t5;
      (k1 + v1) + (k2 + v2) + (k3 + v3) + t4;
      (k1 + v1) + (k2 + v2) + t3;
      (k1 + v1) + t2;
    }
  }

  lemma ReadFixedOf(serviceName: string, program: string, workingDirectory: string, rest: string)
    requires PlainText(serviceName) && PlainText(program) && PlainText(workingDirectory)
    ensures ReadFixed(Skeleton(serviceName, program, workingDirectory) + rest)
         == Some((Descriptor(false, serviceName, [program], workingDirectory, true, None, false), rest))
  {
    var e := True + rest;
    var d := StringElement(workingDirectory) + (Key("RunAtLoad") + e);
    var c := Array([program]) + (Key("WorkingDirectory") + d);
    var b := StringElement(serviceName) + (Key("ProgramArguments") + c);
    var a := False + (Key("Label") + b);
    SkeletonShape(serviceName, program, workingDirectory, rest);
    LitOf(Key("Disabled"), a);
    ReadBoolOf(false, Key("Label") + b);
    LitOf(Key("Label"), b);
    ReadStringOf(serviceName, Key("ProgramArguments") + c);
    LitOf(Key("ProgramArguments"), c);
    ReadArrayOf([program], Key("WorkingDirectory") + d);
    LitOf(Key("WorkingDirectory"), d);
    ReadStringOf(workingDirectory, Key("RunAtLoad") + e);
    LitOf(Key("RunAtLoad"), e);
    ReadBoolOf(true, rest);
  }

  /** What follows the fixed entries never starts like a LimitLoadToSessionType key. */
  lemma NoSessionKey(keepAlive: bool)
    ensures !(Key(SessionKey) <= KeepAliveBlock(keepAlive) + Footer)
  {
    var s := KeepAliveBlock(keepAlive) + Footer;
    if keepAlive {
      assert s == "\n<key>" + ("KeepAlive" + "</key>\n" + True + Footer);
      assert s[6] == 'K';
      NotPrefix(Key(SessionKey), s, 6);
    } else {
      assert s[2] == '/';
      NotPrefix(Key(SessionKey), s, 2);
    }
  }

  lemma ReadSessionTypesOf(isAgent: bool, sessionTypes: Option<seq<TargetSession>>, keepAlive: bool)
    ensures ReadSessionTypes(SessionBlock(isAgent, sessionTypes) + (KeepAliveBlock(keepAlive) + Footer))
         == Some((if isAgent then sessionTypes else None, KeepAliveBlock(keepAlive) + Footer))
  {
    var rest := KeepAliveBlock(keepAlive) + Footer;
    if isAgent && sessionTypes.Some? {
      var names := Names(sessionTypes.value);
      assert Entry(SessionKey, Array(names)) + rest == Key(SessionKey) + (Array(names) + rest);
      LitOf(Key(SessionKey), Array(names) + rest);
      forall v | v in names ensures PlainText(v) {
        var i :| 0 <= i < |names| && names[i] == v;
      }
      ReadArrayOf(names, rest);
      FromLaunchdNamesOfNames(sessionTypes.value);
    } else {
      assert SessionBlock(isAgent, sessionTypes) + rest == rest;
      NoSessionKey(keepAlive);
    }
  }

  lemma ReadKeepAliveOf(keepAlive: bool)
    ensures ReadKeepAlive(KeepAliveBlock(keepAlive) + Footer) == Some((keepAlive, Footer))
  {
    if keepAlive {
      assert KeepAliveBlock(keepAlive) + Footer == Key("KeepAlive") + (True + Footer);
      LitOf(Key("KeepAlive"), True + Footer);
      ReadBoolOf(true, Footer);
    } else {
      assert KeepAliveBlock(keepAlive) + Footer == Footer;
      assert Footer[2] == '/';
      NotPrefix(Key("KeepAlive"), Footer, 2);
    }
  }

  /**
    Round trip: the plist written for a controller reads back as Disabled
    false, the service name as Label, the executable as the one program
    argument, its parent as WorkingDirectory, RunAtLoad true, the session
    types exactly when the controller is an agent with session types set,
    and KeepAlive exactly when keep-alive is on.
  */
  lemma {:induction false} DecodePlistText(serviceName: string, exe: string, isAgent: bool,
                                           sessionTypes: Option<seq<TargetSession>>, keepAlive: bool)
    requires PlainText(serviceName) && PlainText(exe)
    ensures Decode(PlistText(serviceName, exe, isAgent, sessionTypes, keepAlive))
         == Some(Descriptor(false, serviceName, [exe], Paths.Pop(exe), true,
                            if isAgent then sessionTypes else None, keepAlive))
  {
    var directory := Paths.Pop(exe);
    assert PlainText(directory) by {
      assert forall c :: c in directory ==> c in exe;
    }
    var skeleton := Skeleton(serviceName, exe, directory);
    var tail := KeepAliveBlock(keepAlive) + Footer;
    var middle := SessionBlock(isAgent, sessionTypes) + tail;
    Assoc(skeleton, SessionBlock(isAgent, sessionTypes), tail);
    Assoc(SessionBlock(isAgent, sessionTypes), KeepAliveBlock(keepAlive), Footer);
    Assoc(skeleton + SessionBlock(isAgent, sessionTypes), KeepAliveBlock(keepAlive), Footer);
    assert PlistText(serviceName, exe, isAgent, sessionTypes, keepAlive) == Header + (skeleton + middle);
    LitOf(Header, skeleton + middle);
    ReadFixedOf(serviceName, exe, directory, middle);
    ReadSessionTypesOf(isAgent, sessionTypes, keepAlive);
    ReadKeepAliveOf(keepAlive);
  }
}

=== FILE: session.dfy ===
/**
  The session types a launchd agent can be restricted to
  (`LaunchAgentTargetSesssion` in the controller) and the names launchd
  uses for them in the `LimitLoadToSessionType` key.
*/
module Session {
  import opened Base

  datatype TargetSession = GUI | NonGUI | PerUser | PreLogin

  /** The `Display` rendering: launchd's own name for the session type. */
  function Display(t: TargetSession): (name: string)
    ensures name in {"Aqua", "StandardIO", "Background", "LoginWindow"}
    ensures |name| > 0 && '<' !in name
  {
    match t
    case GUI => "Aqua"
    case NonGUI => "StandardIO"
    case PerUser => "Background"
    case PreLogin => "LoginWindow"
  }

  /** Reads a launchd session name back; the inverse of Display. */
  function FromLaunchdName(name: string): (t: Option<TargetSession>)
    ensures t.Some? ==> Display(t.value) == name
    ensures t.None? ==> name !in {"Aqua", "StandardIO", "Background", "LoginWindow"}
  {
    if name == "Aqua" then Some(GUI)
    else if name == "StandardIO" then Some(NonGUI)
    else if name == "Background" then Some(PerUser)
    else if name == "LoginWindow" then Some(PreLogin)
    else None
  }

  lemma FromLaunchdNameOfDisplay(t: TargetSession)
    ensures FromLaunchdName(Display(t)) == Some(t)
  {
  }

  /** The mapping is injective: distinct session types get distinct names. */
  lemma DisplayInjective(t1: TargetSession, t2: TargetSession)
    ensures Display(t1) == Display(t2) ==> t1 == t2
  {
    FromLaunchdNameOfDisplay(t1);
    FromLaunchdNameOfDisplay(t2);
  }

  /** The names of a list of session types, one per element and in order. */
  function Names(ts: seq<TargetSession>): (names: seq<string>)
    ensures |names| == |ts|
    ensures forall i :: 0 <= i < |ts| ==> names[i] == Display(ts[i])
  {
    if ts == [] then [] else [Display(ts[0])] + Names(ts[1..])
  }

  lemma NamesOfPrefix(ts: seq<TargetSession>, i: nat)
    requires i < |ts|
    ensures Names(ts[..i + 1]) == Names(ts[..i]) + [Display(ts[i])]
  {
    assert forall j :: 0 <= j < i ==> ts[..i + 1][j] == ts[..i][j];
  }

  /** Reads a list of launchd names back; fails if any name is unknown. */
  function FromLaunchdNames(names: seq<string>): (ts: Option<seq<TargetSession>>)
    ensures ts.Some? ==> Names(ts.value) == names
  {
    if names == [] then Some([])
    else
      var t :- FromLaunchdName(names[0]);
      var rest :- FromLaunchdNames(names[1..]);
      Some([t] + rest)
  }

  lemma {:induction false} FromLaunchdNamesOfNames(ts: seq<TargetSession>)
    ensures FromLaunchdNames(Names(ts)) == Some(ts)
  {
    if ts != [] {
      FromLaunchdNameOfDisplay(ts[0]);
      FromLaunchdNamesOfNames(ts[1..]);
      assert Names(ts)[1..] == Names(ts[1..]);
      assert [ts[0]] + ts[1..] == ts;
    }
  }
}
